=== FILE: README.md ===
# Subscription proxy with balancer — a Dafny model

The program is a small HTTP service that sits in front of a subscription panel.
A client asks it for `/{short_uuid}`. The service fetches the same path from the
upstream panel and answers with the upstream body, except for one case. If the
client is the Happ app and the body is a JSON list of several Xray node configs,
the service merges them into one Xray config with a load balancer
(`build_balancer_config`). That config picks one of the nodes' proxy outbounds at
random, and an observatory probes them.

The model has seven modules:

- `Wrappers`: the `Option` type.
- `JsonValues`: JSON values of the shapes `json.loads` produces, with strings of Unicode scalar values only (no lone surrogates).
  - Objects are field sequences in insertion order, like Python dicts.
  - `Get` is `dict.get`, and `Put` is item assignment.
  - `Path` follows a chain of keys and indices.
- `Decimal`: how `f"{n}"` writes a natural number, with its inverse.
- `Environment`: the four environment settings with their defaults, plus the fixed forwarded host.
- `Balancer`: `build_balancer_config`.
  - The scan of one config's outbounds, with its `break`.
  - The outer loop that collects and tags one proxy outbound per config.
  - The `None` cases.
  - The merged config as a record, and `Render`, which lays that record out as the exact JSON dict the code returns.
- `HttpHeaders`: header lists and the two lookups the program uses.
  - Starlette's request headers: first value, case-insensitive.
  - httpx's response headers: every value joined with `", "`, case-insensitive.
  - Python's substring test.
- `Gateway`: the two route handlers as pure functions.
  - Inputs: the fetch outcome, the parse outcome of the body and the request.
  - Also modelled: the header map sent upstream, and the copying of the profile headers.

The program can hit a Python exception on input that is not shaped as expected.
The model keeps that case as an explicit outcome, not a precondition. Four
constructors carry it: `Scan.Raises`, `Extraction.ExtractionRaises`,
`Built.BuildRaises` and `Response.Unhandled`. The last is the framework's error
page. The exception is raised in these cases:

- the config is not a dict;
- `outbounds` is a non-empty string or dict;
- `outbounds` is `None`, a boolean or a number;
- an outbound reached by the scan is not a dict;
- a media type or copied profile header value on `/{short_uuid}` is not Latin-1.

Some facts about the program that shape the model:

- Tags are `proxy_{i+1}`, where `i` is the config's position in the whole list. A config without a proxy outbound therefore leaves a gap in the numbering (`GapInNumbering`).
- The `Accept` header forwarded upstream defaults to `*/*`.
- No upstream response header reaches the client, except the content type, which becomes the media type, and, on the merged reply only, the five profile headers. Starlette encodes these as Latin-1: on `/{short_uuid}` a value outside Latin-1 makes the handler raise, and on the path route, where the response is built inside the `try`, it turns into the 502.
- Each upstream request is made once; a failure is answered with 502.
- A non-200 upstream answer on `/{short_uuid}` is passed on with its status and body but no media type.
- Objects hold each key once (`UniqueKeys`), which is how `json.loads` builds dicts. `Get` reads the first field with a key, which is then the only one (`GetUnique`), and `Put` keeps keys unique (`PutKeepsUniqueKeys`).

The inputs are never mutated (`copy.deepcopy` at app.py:30 and 41). In the model
this holds by construction: every value is immutable.

## Model

| member | source | states |
|---|---|---|
| Balancer.ScanOutbounds | app.py:39-45 | the scan yields the first outbound whose protocol is vless, vmess, trojan or shadowsocks, provided every earlier outbound is a dict with another protocol; it yields nothing exactly when every outbound is such a dict; it raises exactly when a non-dict is reached before any proxy outbound |
| Balancer.ProxyOutboundOf | app.py:39-45 | a found outbound is the first proxy outbound of the config's `outbounds` list, every earlier one being a dict with another protocol; nothing found means every listed outbound is such a dict; the scan raises exactly when the config is not a dict, or its `outbounds` is present, not a list and not an empty string or dict, or a non-dict outbound comes before any proxy outbound; a config without `outbounds` yields nothing |
| Balancer.ExtractProxies | app.py:36-45 | the loop raises exactly when some config's scan raises; otherwise it collects exactly one entry per config with a proxy outbound, in strictly increasing position order, each holding that config's first proxy outbound and its position |
| Balancer.ExtractedCount | app.py:36-48 | the number of collected outbounds equals the number of configs that have one |
| Balancer.TagInjective | app.py:37 | configs at different positions receive different tags |
| Balancer.OutboundKeepsUniqueKeys | app.py:41-42 | the re-tagged copy of a dict outbound is still a dict, and its `tag` is the config's tag |
| Decimal.ToNatFromNat | app.py:37 | the decimal numeral in a tag reads back as the number it was written from |
| Decimal.FromNatInjective | app.py:37 | distinct numbers are written as distinct numerals |
| Decimal.FromNat | app.py:37 | the numeral is non-empty, all digits, and has no leading zero |
| JsonValues.Put | app.py:41-42 | after `d["tag"] = tag` the key maps to the tag, every other key keeps its value, and the key order is unchanged, or the key is appended when it was new |
| JsonValues.GetKeys | app.py:59-63 | `dict.get` finds a value exactly when the key is present, and that value is the one stored under the key |
| JsonValues.GetUnique | app.py:39-42 | in a dict every field is what a lookup of its key finds |
| JsonValues.PutKeepsUniqueKeys | app.py:41-42 | item assignment leaves every key held once |
| JsonValues.GetFirst | app.py:57-121 | in a dict literal with distinct keys, each key reads back the value written beside it |
| Balancer.BuildBalancerConfig | app.py:23-123 | `None` exactly for fewer than two configs or fewer than two proxy outbounds; an exception exactly when two or more configs are given and one of them makes the scan raise; otherwise the merged config holds the extracted outbounds (at least two, one per contributing config, in order), each equal to its source outbound except for `tag`; remarks is the balancer name; dns and inbounds come from the first config when it has them and from the fixed defaults when it does not; the probe URL and interval come from the settings |
| Balancer.RenderTopLevel | app.py:57-89 | the returned dict carries remarks, dns, inbounds and outbounds under their keys, holding the merged config's values |
| Balancer.RenderSelectorLayout | app.py:90-120 | the balancer is tagged `balancer` and selects at random over the selector list; the observatory watches the same selector list with the configured probe URL and interval; the rules are bittorrent to `direct`, then tcp,udp to the balancer |
| Balancer.RoutingLayout | app.py:90-114 | within `routing`, the single balancer's tag, selector list and random strategy, and the fixed rule pair |
| Balancer.ObservatoryLayout | app.py:115-120 | within `observatory`, the selector list, probe URL and probe interval |
| Balancer.RenderedTags | app.py:43-54 | the outbound list has two more entries than there are selectors; its tags are the selectors in order, then `direct`, then `block` |
| Balancer.TagAvoidsFallbacks | app.py:37-54 | no proxy tag equals `direct` or `block` or is a prefix of either |
| Balancer.SelectorsNameTheirOutbounds | app.py:37-54 | each selector names exactly one outbound of the rendered list, the one at its own position, and neither fixed outbound |
| Balancer.GapInNumbering | app.py:36-45 | three configs whose middle one has no outbounds merge into selectors `proxy_1` and `proxy_3` |
| HttpHeaders.FirstValue | app.py:136 | `request.headers.get(name)` is absent exactly when no header has the name in any letter case, and otherwise holds a value received under it |
| HttpHeaders.FirstAt | app.py:136 | the first header carrying the name decides the lookup |
| HttpHeaders.ValuesOf | app.py:167 | the values received under a name, in any letter case: empty exactly when none matches, and holding exactly the values of the matching headers |
| HttpHeaders.ValuesOfConcat | app.py:167 | the values found in two lists received one after the other are those of the first list followed by those of the second, so order and repetitions are kept |
| HttpHeaders.ValuesOfOne | app.py:167 | a single header contributes its value exactly when it carries the name |
| HttpHeaders.ValuesOfIgnoresCase | app.py:167 | header lookups do not depend on the letter case of the name asked for |
| HttpHeaders.LookupsAgree | app.py:181-182 | httpx's `name in headers` holds exactly when a lookup finds the name, and both lookups give the same value for a header received once |
| HttpHeaders.Contains | app.py:139 | `sub in s` holds exactly when `sub` occurs at some position of `s` |
| HttpHeaders.Latin1Join | app.py:167 | a value httpx joins from several headers can be encoded as Latin-1 exactly when every part can |
| Gateway.ForwardedLookups | app.py:145-151 | exactly five headers go upstream, and each name reads back: the client's User-Agent (or empty), the client's Accept (or `*/*`), `https`, `subs.pavuka.cv`, and the client address (or `127.0.0.1`) |
| Gateway.ForwardedLookup | app.py:145-151 | each of the five forwarded names reads back the header at its own position |
| Gateway.CopyHeaders | app.py:179-182 | a copied header's name is one of the listed names present upstream, and every such name is copied; each copied value is the upstream value; there are no more copied headers than listed names, and no name is copied twice when the listed names are distinct |
| Gateway.CopiesEncodable | app.py:179-185 | every copied profile header can be encoded as Latin-1 exactly when every profile header present upstream has a Latin-1 value |
| Gateway.ProfileNamesDistinct | app.py:180 | the five profile header names are distinct |
| Gateway.RequestsShareHeaders | app.py:144-151 | both routes send the same headers; the path route's URL is the subscription URL with `/` and the path appended |
| Gateway.PlainPassthrough | app.py:164-168 | with no `content-type` header upstream, in any letter case, the body goes out with status 200 as `text/plain`; the handler raises exactly when some upstream `content-type` header has a value that is not Latin-1; otherwise the body goes out unchanged with status 200 and no copied header |
| Gateway.ProxySubscription | app.py:136-198 | a failed fetch gives 502; a non-200 answer passes through with its status and body and no media type; a client that is not Happ, or a body that is not JSON, gets the body with status 200 and the upstream content type or `text/plain`, and the handler raises when that media type is not Latin-1; a Happ client whose JSON is not a list of more than one element, or for which the build returns `None`, gets the body with status 200 as `application/json` |
| Gateway.BalancedResponse | app.py:170-185 | the body is rewritten exactly when a Happ client gets status 200 and a JSON list of more than one config, none of whose scans raises, at least two of which carry a proxy outbound, and the upstream profile header values are all Latin-1; the rewrite is the one-element list holding the merged config, as `application/json`, with only the profile headers present upstream, each once and with its upstream value |
| Gateway.UnhandledResponse | app.py:163-198 | after status 200 the handler raises exactly when a body passed through as it is has a media type that is not Latin-1, when a Happ client's JSON list of more than one element has a config whose scan raises, or when the merge succeeds but a present profile header value is not Latin-1 |
| Gateway.UpstreamBodyOtherwise | app.py:157-198 | every other answer to a completed fetch carries the upstream bytes unchanged and no copied headers |
| Gateway.PlainClientIgnoresParse | app.py:163-168 | for a client that is not Happ the body's parse outcome plays no part |
| Gateway.NotJsonAsPlainClient | app.py:193-198 | a Happ client whose body is not JSON is answered as a client that is not Happ |
| Gateway.ProxySubscriptionPath | app.py:204-223 | a failed fetch, or an upstream content type that is not Latin-1, gives 502 with no media type; otherwise the status, the body and the content type, which may be absent, come from upstream, and no other header is set |
| Gateway.RoutesAgreeForPlainClients | app.py:154-223 | for a client that is not Happ, both routes answer alike when the fetch fails or returns 200 with a Latin-1 content type; with a content type that is not Latin-1 the main route raises and the path route answers 502 |

## Left out

- The HTTP fetch (httpx client, 30-second timeout, async context): its outcome is an input, `Fetch`. The two request builders `SubscriptionRequest` and `PathRequest` give the URL and headers that are sent. Headers httpx adds on its own, such as Host and Accept-Encoding, are not modelled.
- `json.loads` and the decoding of the body to text: the parse outcome is an input, `Parse`. JSON numbers are integers only, because the merge copies values without looking at them, so floats add nothing.
- Gateway.BalancedResponse: a string holding a lone surrogate (from an escape such as `\ud800`) inside a taken outbound or the first config's `dns` or `inbounds` makes the UTF-8 encoding in `JSONResponse` raise at app.py:185; `Json` strings cannot hold surrogates, so the rewrite is stated only for inputs without them.
- Gateway.UnhandledResponse: two raising paths are not modelled. One is the lone-surrogate encoding failure above. The other is a `json.loads` failure that is not a `JSONDecodeError`, such as a `RecursionError` on deeply nested text or the `ValueError` newer Pythons raise on integer literals of more than 4300 digits, which the `except` at app.py:193 does not catch. `Parse` has only "not JSON" and "parsed" outcomes.
- The text of the 502 body (`Upstream error: {e}`): it depends on the exception's message and is kept only as `UpstreamErrorText`.
- FastAPI routing, the `/health` endpoint and the uvicorn entry point with `APP_PORT`: these are framework plumbing outside the two handlers.
- Header names are compared under ASCII case folding only. HTTP header names are ASCII tokens, so Python's full Unicode `lower()` makes no difference to them.
- A NaN or infinite float in the merged config would make `JSONResponse` raise while serialising. JSON numbers in the model are integers, so this case does not arise.
- `os.getenv`: the four settings are a `Settings` value, and their defaults are `Environment.Defaults`.
- Starlette's response details: Latin-1 encoding of header values and media types is modelled; not modelled are the `; charset=utf-8` suffix it adds to `text/*` media types, `content-length`, and the contents of its error page, which appears only as `Unhandled`.
- Gateway.ProxySubscription: the contract does not describe the merged and the raising cases itself; `BalancedResponse` and `UnhandledResponse` state them.

=== FILE: balancer.dfy ===
/** `build_balancer_config` (app.py:23-123): merge several Xray node configs into one
    config whose routing spreads traffic over their proxy outbounds. */
module Balancer {
  import opened Wrappers
  import opened JsonValues
  import Decimal
  import opened Environment

  /** Protocols whose outbounds are taken as proxy outbounds (app.py:40). */
  const ProxyProtocols: seq<string> := ["vless", "vmess", "trojan", "shadowsocks"]

  /** `outbound.get("protocol") in [...]`: only a string equal to one of the
      protocols qualifies; a missing or non-string protocol does not. */
  predicate IsProxyProtocol(protocol: Option<Json>) {
    protocol.Some? && protocol.value.Str? && protocol.value.s in ProxyProtocols
  }

  predicate IsProxyOutbound(item: Json) {
    item.Obj? && IsProxyProtocol(Get(item.fields, "protocol"))
  }

  /** A dict outbound that the scan passes over. */
  predicate IsOtherOutbound(item: Json) {
    item.Obj? && !IsProxyProtocol(Get(item.fields, "protocol"))
  }

  /** The scan reaches position `k`: every outbound before it is passed over. */
  predicate SkipsTo(items: seq<Json>, k: nat)
    requires k <= |items|
  {
    forall j :: 0 <= j < k ==> IsOtherOutbound(items[j])
  }

  /** Outcome of the inner loop over one config's outbounds (app.py:39-45):
      the first proxy outbound, none, or an exception because `.get` was called
      on something that is not a dict. */
  datatype Scan = Found(outbound: seq<Field>) | Missing | Raises

  function ScanOutbounds(items: seq<Json>): (r: Scan)
    ensures r.Found? ==>
      exists k :: 0 <= k < |items| && items[k] == Obj(r.outbound) && IsProxyOutbound(items[k]) && SkipsTo(items, k)
    ensures r.Missing? <==> SkipsTo(items, |items|)
    ensures r.Raises? <==> exists k :: 0 <= k < |items| && !items[k].Obj? && SkipsTo(items, k)
  {
    if |items| == 0 then Missing
    else
      var rest := ScanOutbounds(items[1..]);
      assert forall k :: 0 < k <= |items| ==> (SkipsTo(items, k) <==> IsOtherOutbound(items[0]) && SkipsTo(items[1..], k - 1));
      match items[0]
      case Obj(fs) =>
        if IsProxyProtocol(Get(fs, "protocol")) then
          assert SkipsTo(items, 0);
          Found(fs)
        else
          if rest.Found? then
            var k :| 0 <= k < |items[1..]| && items[1..][k] == Obj(rest.outbound) && IsProxyOutbound(items[1..][k]) && SkipsTo(items[1..], k);
            assert items[k + 1] == Obj(rest.outbound) && SkipsTo(items, k + 1);
            rest
          else if rest.Raises? then
            var k :| 0 <= k < |items[1..]| && !items[1..][k].Obj? && SkipsTo(items[1..], k);
            assert !items[k + 1].Obj? && SkipsTo(items, k + 1);
            rest
          else
            rest
      case _ =>
        assert SkipsTo(items, 0);
        Raises
  }

  /** The outbounds a config exposes to the scan, when `config["outbounds"]` is a list. */
  function OutboundList(config: Json): seq<Json> {
    if config.Obj? && Get(config.fields, "outbounds").Some? && Get(config.fields, "outbounds").value.Arr?
    then Get(config.fields, "outbounds").value.items
    else []
  }

  /** A present `outbounds` value that is not a list and whose iteration raises: a
      non-empty string or dict (its items are strings, which have no `.get`), or a
      value that cannot be iterated at all. An empty string or dict iterates nothing. */
  predicate NotIterableAsList(outbounds: Option<Json>) {
    outbounds.Some? && !outbounds.value.Arr? && outbounds.value != Str("") && outbounds.value != Obj([])
  }

  /** `for outbound in config.get("outbounds", [])` with its `break` (app.py:39-45).
      A missing key iterates nothing. Iterating an empty string or dict does nothing;
      a non-empty one yields strings, and `str.get` raises. `None`, booleans and
      numbers are not iterable, and a config that is not a dict has no `.get`. */
  function ProxyOutboundOf(config: Json): (r: Scan)
    ensures r.Found? ==>
      exists k :: 0 <= k < |OutboundList(config)| && OutboundList(config)[k] == Obj(r.outbound) &&
        IsProxyOutbound(OutboundList(config)[k]) && SkipsTo(OutboundList(config), k)
    ensures r.Missing? ==> forall item :: item in OutboundList(config) ==> IsOtherOutbound(item)
    ensures r.Raises? <==>
      || !config.Obj?
      || NotIterableAsList(Get(config.fields, "outbounds"))
      || exists k :: 0 <= k < |OutboundList(config)| && !OutboundList(config)[k].Obj? && SkipsTo(OutboundList(config), k)
    ensures config.Obj? && Get(config.fields, "outbounds").None? ==> r.Missing?
  {
    match config
    case Obj(fs) =>
      (match Get(fs, "outbounds")
       case None => Missing
       case Some(Arr(items)) =>
         assert OutboundList(config) == items;
         ScanOutbounds(items)
       case Some(Str(s)) => if |s| == 0 then Missing else Raises
       case Some(Obj(entries)) => if |entries| == 0 then Missing else Raises
       case Some(_) => Raises)
    case _ => Raises
  }

  /** `f"proxy_{i+1}"`: the tag given to the outbound taken from the config at
      position `index` of the input list. */
  function Tag(index: nat): string {
    "proxy_" + Decimal.FromNat(index + 1)
  }

  /** Configs at different positions get different tags. */
  lemma TagInjective(a: nat, b: nat)
    ensures Tag(a) == Tag(b) ==> a == b
  {
    if Tag(a) == Tag(b) {
      assert Tag(a)[6..] == Decimal.FromNat(a + 1);
      assert Tag(b)[6..] == Decimal.FromNat(b + 1);
      Decimal.FromNatInjective(a + 1, b + 1);
    }
  }

  /** A proxy outbound taken from the config at position `index`. */
  datatype Tagged = Tagged(index: nat, source: seq<Field>)
  {
    /** The deep copy with `new_outbound["tag"] = tag` applied (app.py:41-42). */
    function Outbound(): seq<Field> {
      Put(source, "tag", Str(Tag(index)))
    }
  }

  /** Re-tagging a dict outbound leaves a dict: each key is still held once. */
  lemma OutboundKeepsUniqueKeys(t: Tagged)
    requires UniqueKeys(t.source)
    ensures UniqueKeys(t.Outbound())
    ensures Get(t.Outbound(), "tag") == Some(Str(Tag(t.index)))
  {
    PutKeepsUniqueKeys(t.source, "tag", Str(Tag(t.index)));
  }

  /** The scan outcome of every config, by position. */
  function Scans(configs: seq<Json>): seq<Scan> {
    seq(|configs|, i requires 0 <= i < |configs| => ProxyOutboundOf(configs[i]))
  }

  /** `t` holds the proxy outbound that the scan at `t.index` found. */
  ghost predicate TakenFrom(scans: seq<Scan>, t: Tagged) {
    t.index < |scans| && scans[t.index] == Found(t.source)
  }

  /** Every position whose scan found a proxy outbound has an entry in `ts`. */
  ghost predicate Covers(scans: seq<Scan>, ts: seq<Tagged>) {
    forall i :: 0 <= i < |scans| && scans[i].Found? ==>
      exists k :: 0 <= k < |ts| && ts[k].index == i
  }

  ghost predicate StrictlyIncreasing(ts: seq<Tagged>) {
    forall k, l :: 0 <= k < l < |ts| ==> ts[k].index < ts[l].index
  }

  /** One entry per found outbound, in position order, and nothing else. */
  ghost predicate CollectedFrom(scans: seq<Scan>, ts: seq<Tagged>) {
    && (forall k :: 0 <= k < |ts| ==> TakenFrom(scans, ts[k]))
    && StrictlyIncreasing(ts)
    && Covers(scans, ts)
  }

  /** `ts` is what the outer loop (app.py:36-45) collects from `configs`: one entry per
      config that has a proxy outbound, in input order, each the config's first proxy
      outbound together with the config's position. */
  ghost predicate ExtractedFrom(configs: seq<Json>, ts: seq<Tagged>) {
    CollectedFrom(Scans(configs), ts)
  }

  /** Positions of the configs that contribute a proxy outbound. */
  ghost function ProxyIndices(configs: seq<Json>): set<nat> {
    set i: nat | i < |configs| && ProxyOutboundOf(configs[i]).Found?
  }

  ghost predicate AnyRaises(configs: seq<Json>) {
    exists i :: 0 <= i < |configs| && ProxyOutboundOf(configs[i]).Raises?
  }

  datatype Extraction = Extracted(tagged: seq<Tagged>) | ExtractionRaises

  /** The outer loop `for i, config in enumerate(configs)` (app.py:36-45): it stops
      with an exception as soon as one config's scan raises. */
  function ExtractProxies(configs: seq<Json>): (r: Extraction)
    ensures r.ExtractionRaises? <==> AnyRaises(configs)
    ensures r.Extracted? ==> ExtractedFrom(configs, r.tagged)
    decreases |configs|
  {
    if |configs| == 0 then Extracted([])
    else
      var i := |configs| - 1;
      AnyRaisesSnoc(configs);
      ScansPrefix(configs);
      match ExtractProxies(configs[..i])
      case ExtractionRaises => ExtractionRaises
      case Extracted(ts) =>
        match ProxyOutboundOf(configs[i])
        case Raises => ExtractionRaises
        case Missing =>
          ExtendMissing(Scans(configs), ts);
          Extracted(ts)
        case Found(o) =>
          ExtendFound(Scans(configs), ts, o);
          Extracted(ts + [Tagged(i, o)])
  }

  lemma ScansPrefix(configs: seq<Json>)
    requires |configs| > 0
    ensures Scans(configs[..|configs| - 1]) == Scans(configs)[..|configs| - 1]
    ensures Scans(configs)[|configs| - 1] == ProxyOutboundOf(configs[|configs| - 1])
  {
    var earlier := configs[..|configs| - 1];
    assert forall j :: 0 <= j < |earlier| ==> earlier[j] == configs[j];
  }

  lemma AnyRaisesSnoc(configs: seq<Json>)
    requires |configs| > 0
    ensures AnyRaises(configs) <==>
      AnyRaises(configs[..|configs| - 1]) || ProxyOutboundOf(configs[|configs| - 1]).Raises?
  {
    var earlier := configs[..|configs| - 1];
    assert forall j :: 0 <= j < |earlier| ==> earlier[j] == configs[j];
  }

  lemma ExtendMissing(scans: seq<Scan>, ts: seq<Tagged>)
    requires |scans| > 0
    requires CollectedFrom(scans[..|scans| - 1], ts)
    requires scans[|scans| - 1].Missing?
    ensures CollectedFrom(scans, ts)
  {
    var earlier := scans[..|scans| - 1];
    forall k | 0 <= k < |ts|
      ensures TakenFrom(scans, ts[k])
    {
      assert TakenFrom(earlier, ts[k]);
    }
    forall j | 0 <= j < |scans| && scans[j].Found?
      ensures exists k :: 0 <= k < |ts| && ts[k].index == j
    {
      assert earlier[j] == scans[j];
    }
  }

  lemma EntryOf(scans: seq<Scan>, ts: seq<Tagged>, i: nat) returns (k: nat)
    requires Covers(scans, ts)
    requires i < |scans| && scans[i].Found?
    ensures k < |ts| && ts[k].index == i
  {
    k :| 0 <= k < |ts| && ts[k].index == i;
  }

  lemma ExtendFound(scans: seq<Scan>, ts: seq<Tagged>, o: seq<Field>)
    requires |scans| > 0
    requires CollectedFrom(scans[..|scans| - 1], ts)
    requires scans[|scans| - 1] == Found(o)
    ensures CollectedFrom(scans, ts + [Tagged(|scans| - 1, o)])
  {
    var i := |scans| - 1;
    var earlier := scans[..i];
    var ts' := ts + [Tagged(i, o)];
    forall k | 0 <= k < |ts'|
      ensures TakenFrom(scans, ts'[k])
    {
      if k < |ts| {
        assert ts'[k] == ts[k];
        assert TakenFrom(earlier, ts[k]);
      }
    }
    forall k, l | 0 <= k < l < |ts'|
      ensures ts'[k].index < ts'[l].index
    {
      assert TakenFrom(earlier, ts[k]);
      if l < |ts| {
        assert ts'[k] == ts[k] && ts'[l] == ts[l];
      }
    }
    forall j | 0 <= j < |scans| && scans[j].Found?
      ensures exists k :: 0 <= k < |ts'| && ts'[k].index == j
    {
      if j < i {
        assert earlier[j] == scans[j];
        var k := EntryOf(earlier, ts, j);
        assert ts'[k].index == j;
      } else {
        assert ts'[|ts|].index == j;
      }
    }
  }

  lemma ProxyIndicesSnoc(configs: seq<Json>)
    requires |configs| > 0
    ensures var i := |configs| - 1;
      ProxyIndices(configs) == ProxyIndices(configs[..i]) + (if ProxyOutboundOf(configs[i]).Found? then {i} else {})
    ensures |configs| - 1 !in ProxyIndices(configs[..|configs| - 1])
  {
    var earlier := configs[..|configs| - 1];
    assert forall j :: 0 <= j < |earlier| ==> earlier[j] == configs[j];
  }

  /** The number of extracted outbounds is the number of configs that have one. */
  lemma {:induction false} ExtractedCount(configs: seq<Json>)
    ensures ExtractProxies(configs).Extracted? ==> |ExtractProxies(configs).tagged| == |ProxyIndices(configs)|
    decreases |configs|
  {
    if |configs| > 0 {
      var i := |configs| - 1;
      ExtractedCount(configs[..i]);
      ProxyIndicesSnoc(configs);
    }
  }

  /** The merged config, before it is laid out as JSON by `Render`. */
  datatype BalancerConfig = BalancerConfig(
    remarks: string,
    dns: Json,
    inbounds: Json,
    proxies: seq<Tagged>,
    probeUrl: string,
    probeInterval: string)
  {
    /** `balancer_selectors`: the tags of the proxy outbounds, in order. */
    function Selectors(): seq<string> {
      seq(|proxies|, k requires 0 <= k < |proxies| => Tag(proxies[k].index))
    }
  }

  const DirectOutbound: Json := Obj([Field("tag", Str("direct")), Field("protocol", Str("freedom"))])
  const BlockOutbound: Json := Obj([Field("tag", Str("block")), Field("protocol", Str("blackhole"))])

  /** DNS block used when the first config has no `dns` key (app.py:59-62). */
  const DefaultDns: Json := Obj([
    Field("servers", Arr([Str("1.1.1.1"), Str("1.0.0.1")])),
    Field("queryStrategy", Str("UseIP"))])

  const Sniffing: Json := Obj([
    Field("enabled", Bool(true)),
    Field("routeOnly", Bool(false)),
    Field("destOverride", Arr([Str("http"), Str("tls"), Str("quic")]))])

  /** Inbounds used when the first config has no `inbounds` key (app.py:63-88):
      SOCKS on 10808 and HTTP on 10809, both on the loopback address. */
  const DefaultInbounds: Json := Arr([
    Obj([
      Field("tag", Str("socks")),
      Field("port", Num(10808)),
      Field("listen", Str("127.0.0.1")),
      Field("protocol", Str("socks")),
      Field("settings", Obj([Field("udp", Bool(true)), Field("auth", Str("noauth"))])),
      Field("sniffing", Sniffing)]),
    Obj([
      Field("tag", Str("http")),
      Field("port", Num(10809)),
      Field("listen", Str("127.0.0.1")),
      Field("protocol", Str("http")),
      Field("settings", Obj([Field("allowTransparent", Bool(false))])),
      Field("sniffing", Sniffing)])])

  /** `base.get(key, default)` on the copy of the first config. The build only gets
      here when the first config is a dict; any other value would already have
      raised in the loop. */
  function BaseOr(base: Json, key: string, default: Json): Json {
    if base.Obj? then GetOr(base.fields, key, default) else default
  }

  datatype Built = Balanced(config: BalancerConfig) | NotBalanced | BuildRaises

  /** `build_balancer_config`: `None` for fewer than two configs or fewer than two
      proxy outbounds; otherwise the merged config. */
  function BuildBalancerConfig(settings: Settings, configs: seq<Json>): (r: Built)
    ensures r.NotBalanced? <==> |configs| < 2 || (!AnyRaises(configs) && |ProxyIndices(configs)| < 2)
    ensures r.BuildRaises? <==> |configs| >= 2 && AnyRaises(configs)
    ensures r.Balanced? ==>
      && ExtractedFrom(configs, r.config.proxies)
      && |r.config.proxies| == |ProxyIndices(configs)| >= 2
    ensures r.Balanced? ==> forall k, key :: 0 <= k < |r.config.proxies| && key != "tag" ==>
      Get(r.config.proxies[k].Outbound(), key) == Get(r.config.proxies[k].source, key)
    ensures r.Balanced? ==>
      && configs[0].Obj?
      && r.config.remarks == settings.balancerName
      && (Get(configs[0].fields, "dns").Some? ==> r.config.dns == Get(configs[0].fields, "dns").value)
      && (Get(configs[0].fields, "dns").None? ==> r.config.dns == DefaultDns)
      && (Get(configs[0].fields, "inbounds").Some? ==> r.config.inbounds == Get(configs[0].fields, "inbounds").value)
      && (Get(configs[0].fields, "inbounds").None? ==> r.config.inbounds == DefaultInbounds)
      && r.config.probeUrl == settings.probeUrl
      && r.config.probeInterval == settings.probeInterval
  {
    if |configs| < 2 then NotBalanced
    else
      match ExtractProxies(configs)
      case ExtractionRaises => BuildRaises
      case Extracted(ts) =>
        ExtractedCount(configs);
        if |ts| < 2 then NotBalanced
        else
          assert !ProxyOutboundOf(configs[0]).Raises?;
          Balanced(BalancerConfig(
            settings.balancerName,
            BaseOr(configs[0], "dns", DefaultDns),
            BaseOr(configs[0], "inbounds", DefaultInbounds),
            ts,
            settings.probeUrl,
            settings.probeInterval))
  }

  /** The `outbounds` list of the merged config: the proxy outbounds in order, then
      the fixed `direct` and `block` outbounds (app.py:43, 51-54, 89). */
  function RenderedOutbounds(b: BalancerConfig): seq<Json> {
    seq(|b.proxies|, k requires 0 <= k < |b.proxies| => Obj(b.proxies[k].Outbound())) + [DirectOutbound, BlockOutbound]
  }

  /** `balancer_selectors` as a JSON list. */
  function SelectorList(b: BalancerConfig): Json {
    var selectors := b.Selectors();
    Arr(seq(|selectors|, k requires 0 <= k < |selectors| => Str(selectors[k])))
  }

  const BalancerTag: string := "balancer"

  /** The routing rules (app.py:102-113): BitTorrent goes out directly, all other
      TCP and UDP traffic through the balancer. */
  const RoutingRules: Json := Arr([
    Obj([
      Field("type", Str("field")),
      Field("protocol", Arr([Str("bittorrent")])),
      Field("outboundTag", Str("direct"))]),
    Obj([
      Field("type", Str("field")),
      Field("network", Str("tcp,udp")),
      Field("balancerTag", Str(BalancerTag))])])

  /** The single balancer of the routing block (app.py:94-100). */
  function RenderBalancer(b: BalancerConfig): Json {
    Obj([
      Field("tag", Str(BalancerTag)),
      Field("selector", SelectorList(b)),
      Field("strategy", Obj([Field("type", Str("random"))]))])
  }

  function RenderRouting(b: BalancerConfig): Json {
    Obj([
      Field("domainMatcher", Str("hybrid")),
      Field("domainStrategy", Str("IPIfNonMatch")),
      Field("balancers", Arr([RenderBalancer(b)])),
      Field("rules", RoutingRules)])
  }

  /** The health-probe block (app.py:115-120). */
  function RenderObservatory(b: BalancerConfig): Json {
    Obj([
      Field("subjectSelector", SelectorList(b)),
      Field("probeURL", Str(b.probeUrl)),
      Field("probeInterval", Str(b.probeInterval)),
      Field("enableConcurrency", Bool(true))])
  }

  /** `final_config` (app.py:57-121) as a JSON dict. The same selector list serves the
      balancer and the observatory. */
  function Render(b: BalancerConfig): Json {
    Obj([
      Field("remarks", Str(b.remarks)),
      Field("dns", b.dns),
      Field("inbounds", b.inbounds),
      Field("outbounds", Arr(RenderedOutbounds(b))),
      Field("routing", RenderRouting(b)),
      Field("observatory", RenderObservatory(b))])
  }

  /** The `tag` of an outbound dict. */
  function TagOf(item: Json): Option<Json> {
    if item.Obj? then Get(item.fields, "tag") else None
  }

  /** Where the first config's blocks and the extracted outbounds land in the rendered
      JSON. */
  lemma RenderTopLevel(b: BalancerConfig)
    ensures Path(Render(b), [Key("remarks")]) == Some(Str(b.remarks))
    ensures Path(Render(b), [Key("dns")]) == Some(b.dns)
    ensures Path(Render(b), [Key("inbounds")]) == Some(b.inbounds)
    ensures Path(Render(b), [Key("outbounds")]) == Some(Arr(RenderedOutbounds(b)))
  {
    var top := Render(b).fields;
    assert Path(Render(b), [Key("remarks")]) == Some(Str(b.remarks)) by {
      GetFirst(top, 0);
    }
    assert Path(Render(b), [Key("dns")]) == Some(b.dns) by {
      assert "dns" != "remarks";
      GetFirst(top, 1);
    }
    assert Path(Render(b), [Key("inbounds")]) == Some(b.inbounds) by {
      assert "inbounds" != "remarks" && "inbounds" != "dns";
      GetFirst(top, 2);
    }
    assert Path(Render(b), [Key("outbounds")]) == Some(Arr(RenderedOutbounds(b))) by {
      assert "outbounds" != "remarks" && "outbounds" != "dns" && "outbounds" != "inbounds";
      GetFirst(top, 3);
    }
  }

  /** The balancer and the observatory both list exactly the selectors; the balancer
      is tagged `balancer` and picks at random; the rules are the fixed pair. */
  lemma RenderSelectorLayout(b: BalancerConfig)
    ensures Path(Render(b), [Key("routing"), Key("balancers"), Index(0), Key("tag")]) == Some(Str(BalancerTag))
    ensures Path(Render(b), [Key("routing"), Key("balancers"), Index(0), Key("selector")]) == Some(SelectorList(b))
    ensures Path(Render(b), [Key("routing"), Key("balancers"), Index(0), Key("strategy"), Key("type")]) == Some(Str("random"))
    ensures Path(Render(b), [Key("routing"), Key("rules")]) == Some(RoutingRules)
    ensures Path(Render(b), [Key("observatory"), Key("subjectSelector")]) == Some(SelectorList(b))
    ensures Path(Render(b), [Key("observatory"), Key("probeURL")]) == Some(Str(b.probeUrl))
    ensures Path(Render(b), [Key("observatory"), Key("probeInterval")]) == Some(Str(b.probeInterval))
  {
    var top := Render(b).fields;
    assert Get(top, "routing") == Some(RenderRouting(b)) by {
      assert "routing" != "remarks" && "routing" != "dns" && "routing" != "inbounds" && "routing" != "outbounds";
      GetFirst(top, 4);
    }
    assert Get(top, "observatory") == Some(RenderObservatory(b)) by {
      assert "observatory" != "remarks" && "observatory" != "dns" && "observatory" != "inbounds";
      assert "observatory" != "outbounds" && "observatory" != "routing";
      GetFirst(top, 5);
    }
    RoutingLayout(b);
    ObservatoryLayout(b);
  }

  lemma RoutingLayout(b: BalancerConfig)
    ensures Path(RenderRouting(b), [Key("balancers"), Index(0), Key("tag")]) == Some(Str(BalancerTag))
    ensures Path(RenderRouting(b), [Key("balancers"), Index(0), Key("selector")]) == Some(SelectorList(b))
    ensures Path(RenderRouting(b), [Key("balancers"), Index(0), Key("strategy"), Key("type")]) == Some(Str("random"))
    ensures Path(RenderRouting(b), [Key("rules")]) == Some(RoutingRules)
  {
    var routing := RenderRouting(b).fields;
    assert Get(routing, "balancers") == Some(Arr([RenderBalancer(b)])) by {
      assert "balancers" != "domainMatcher" && "balancers" != "domainStrategy";
      GetFirst(routing, 2);
    }
    assert Get(routing, "rules") == Some(RoutingRules) by {
      assert "rules" != "domainMatcher" && "rules" != "domainStrategy" && "rules" != "balancers";
      GetFirst(routing, 3);
    }
    var balancer := RenderBalancer(b).fields;
    assert Get(balancer, "tag") == Some(Str(BalancerTag)) by {
      GetFirst(balancer, 0);
    }
    assert Get(balancer, "selector") == Some(SelectorList(b)) by {
      assert "selector" != "tag";
      GetFirst(balancer, 1);
    }
    assert Get(balancer, "strategy") == Some(Obj([Field("type", Str("random"))])) by {
      assert "strategy" != "tag" && "strategy" != "selector";
      GetFirst(balancer, 2);
    }
  }

  lemma ObservatoryLayout(b: BalancerConfig)
    ensures Path(RenderObservatory(b), [Key("subjectSelector")]) == Some(SelectorList(b))
    ensures Path(RenderObservatory(b), [Key("probeURL")]) == Some(Str(b.probeUrl))
    ensures Path(RenderObservatory(b), [Key("probeInterval")]) == Some(Str(b.probeInterval))
  {
    var observatory := RenderObservatory(b).fields;
    assert Get(observatory, "subjectSelector") == Some(SelectorList(b)) by {
      GetFirst(observatory, 0);
    }
    assert Get(observatory, "probeURL") == Some(Str(b.probeUrl)) by {
      assert "probeURL" != "subjectSelector";
      GetFirst(observatory, 1);
    }
    assert Get(observatory, "probeInterval") == Some(Str(b.probeInterval)) by {
      assert "probeInterval" != "subjectSelector" && "probeInterval" != "probeURL";
      GetFirst(observatory, 2);
    }
  }

  /** The outbound list has two entries more than there are selectors, and its tags,
      read in order, are the selectors followed by `direct` and `block`. */
  lemma RenderedTags(b: BalancerConfig)
    ensures |RenderedOutbounds(b)| == |b.Selectors()| + 2
    ensures forall k :: 0 <= k < |b.Selectors()| ==> TagOf(RenderedOutbounds(b)[k]) == Some(Str(b.Selectors()[k]))
    ensures TagOf(RenderedOutbounds(b)[|b.Selectors()|]) == Some(Str("direct"))
    ensures TagOf(RenderedOutbounds(b)[|b.Selectors()| + 1]) == Some(Str("block"))
  {
  }

  /** Tags start with `proxy_`, so none of them is `direct`, `block`, or a prefix of
      either. */
  lemma TagAvoidsFallbacks(index: nat)
    ensures !(Tag(index) <= "direct") && !(Tag(index) <= "block")
    ensures Tag(index) != "direct" && Tag(index) != "block"
  {
    assert Tag(index)[0] == 'p';
  }

  /** Each selector names exactly one outbound of the rendered list, the one at its
      own position, and never one of the fixed `direct`/`block` outbounds, not even
      as a prefix. */
  lemma SelectorsNameTheirOutbounds(b: BalancerConfig)
    requires StrictlyIncreasing(b.proxies)
    ensures forall k, m ::
      (0 <= k < |b.Selectors()| && 0 <= m < |RenderedOutbounds(b)| &&
       TagOf(RenderedOutbounds(b)[m]) == Some(Str(b.Selectors()[k]))) ==> m == k
    ensures forall k :: 0 <= k < |b.Selectors()| ==>
      !(b.Selectors()[k] <= "direct") && !(b.Selectors()[k] <= "block")
  {
    var selectors := b.Selectors();
    var outs := RenderedOutbounds(b);
    RenderedTags(b);
    forall k, m | 0 <= k < |selectors| && 0 <= m < |outs| && TagOf(outs[m]) == Some(Str(selectors[k]))
      ensures m == k
    {
      TagAvoidsFallbacks(b.proxies[k].index);
      if m < |selectors| {
        TagInjective(b.proxies[k].index, b.proxies[m].index);
      }
    }
    forall k | 0 <= k < |selectors|
      ensures !(selectors[k] <= "direct") && !(selectors[k] <= "block")
    {
      TagAvoidsFallbacks(b.proxies[k].index);
    }
  }

  /** Three configs, the middle one without outbounds: the merge keeps the other two
      and tags them by their positions in the input, `proxy_1` and `proxy_3`. */
  lemma GapInNumbering(settings: Settings)
    ensures var first := Obj([Field("protocol", Str("vless"))]);
      var last := Obj([Field("protocol", Str("trojan"))]);
      var configs := [Obj([Field("outbounds", Arr([first]))]), Obj([]), Obj([Field("outbounds", Arr([last]))])];
      var r := BuildBalancerConfig(settings, configs);
      r.Balanced? && r.config.Selectors() == ["proxy_1", "proxy_3"]
  {
    var first := Obj([Field("protocol", Str("vless"))]);
    var last := Obj([Field("protocol", Str("trojan"))]);
    var configs := [Obj([Field("outbounds", Arr([first]))]), Obj([]), Obj([Field("outbounds", Arr([last]))])];
    GapExtraction(first, last, configs);
    var r := BuildBalancerConfig(settings, configs);
    assert r.Balanced? && r.config.proxies == [Tagged(0, first.fields), Tagged(2, last.fields)];
    GapTags();
    var selectors := r.config.Selectors();
    assert |selectors| == 2 && selectors[0] == Tag(0) && selectors[1] == Tag(2);
  }

  lemma GapExtraction(first: Json, last: Json, configs: seq<Json>)
    requires first == Obj([Field("protocol", Str("vless"))])
    requires last == Obj([Field("protocol", Str("trojan"))])
    requires configs == [Obj([Field("outbounds", Arr([first]))]), Obj([]), Obj([Field("outbounds", Arr([last]))])]
    ensures ExtractProxies(configs) == Extracted([Tagged(0, first.fields), Tagged(2, last.fields)])
  {
    assert ProxyOutboundOf(configs[0]) == Found(first.fields);
    assert ProxyOutboundOf(configs[1]) == Missing;
    assert ProxyOutboundOf(configs[2]) == Found(last.fields);
    assert ExtractProxies(configs[..1]) == Extracted([Tagged(0, first.fields)]);
    assert configs[..2][..1] == configs[..1];
    assert ExtractProxies(configs[..2]) == Extracted([Tagged(0, first.fields)]);
    assert configs[..2] == configs[..|configs| - 1];
  }

  lemma GapTags()
    ensures Tag(0) == "proxy_1" && Tag(2) == "proxy_3"
  {
    assert Decimal.FromNat(1) == "1";
    assert "proxy_" + "1" == "proxy_1";
    assert Decimal.FromNat(3) == "3";
    assert "proxy_" + "3" == "proxy_3";
  }
}

=== FILE: decimal.dfy ===
/** Decimal rendering of natural numbers, as Python's `f"{n}"` writes an `int`. */
module Decimal {

  predicate IsDigit(c: char) {
    '0' <= c <= '9'
  }

  function DigitChar(d: nat): (c: char)
    requires d < 10
    ensures IsDigit(c) && c as int - '0' as int == d
  {
    (d + '0' as int) as char
  }

  /** Shortest decimal numeral of `n`: digits only, no leading zero. */
  function FromNat(n: nat): (s: string)
    ensures |s| >= 1
    ensures forall k :: 0 <= k < |s| ==> IsDigit(s[k])
    ensures s[0] == '0' ==> s == "0"
  {
    if n < 10 then [DigitChar(n)] else FromNat(n / 10) + [DigitChar(n % 10)]
  }

  /** Value of a numeral, most significant digit first. */
  function ToNat(s: string): nat
    requires forall k :: 0 <= k < |s| ==> IsDigit(s[k])
  {
    if |s| == 0 then 0
    else ToNat(s[..|s| - 1]) * 10 + DigitValue(s[|s| - 1])
  }

  function DigitValue(c: char): (d: nat)
    requires IsDigit(c)
    ensures d < 10 && DigitChar(d) == c
  {
    c as int - '0' as int
  }

  /** Reading back a rendered number gives the number. */
  lemma {:induction false} ToNatFromNat(n: nat)
    ensures ToNat(FromNat(n)) == n
  {
    if n >= 10 {
      var s := FromNat(n);
      assert s[..|s| - 1] == FromNat(n / 10);
      ToNatFromNat(n / 10);
    }
  }

  /** Distinct numbers render as distinct numerals. */
  lemma FromNatInjective(a: nat, b: nat)
    ensures FromNat(a) == FromNat(b) ==> a == b
  {
    ToNatFromNat(a);
    ToNatFromNat(b);
  }
}

=== FILE: environment.dfy ===
/** The process configuration the program reads from its environment at start-up
    (app.py:17-20), as a value handed to the handlers. */
module Environment {

  datatype Settings = Settings(
    upstreamUrl: string,
    balancerName: string,
    probeUrl: string,
    probeInterval: string)

  /** The values used when the corresponding environment variable is unset. */
  const Defaults: Settings := Settings(
    "http://127.0.0.1:3011",
    "\U{1F1F5}\U{1F1F1} \U{041F}\U{043E}\U{043B}\U{044C}\U{0448}\U{0430}",
    "https://www.google.com/generate_204",
    "10s")

  /** The host name announced to the upstream in `X-Forwarded-Host`. */
  const ForwardedHost: string := "subs.pavuka.cv"
}

=== FILE: gateway.dfy ===
/** The two subscription routes of app.py (132-223) as decisions over given inputs:
    the outcome of the upstream fetch and, for the transforming path, the outcome of
    `json.loads` on the upstream text. */
module Gateway {
  import opened Wrappers
  import opened JsonValues
  import opened HttpHeaders
  import opened Environment
  import Balancer

  newtype byte = x: int | 0 <= x < 256

  /** What a handler reads from the inbound request: its headers and, when known,
      the client's address. */
  datatype ClientRequest = ClientRequest(headers: seq<Header>, clientHost: Option<string>)

  datatype UpstreamRequest = UpstreamRequest(url: string, headers: seq<Header>)

  datatype UpstreamResponse = UpstreamResponse(status: int, content: seq<byte>, headers: seq<Header>)

  /** `client.get(...)` either raised or produced a response. */
  datatype Fetch = FetchFailed | Fetched(response: UpstreamResponse)

  /** `json.loads(upstream_response.text)` either raised `JSONDecodeError` or parsed. */
  datatype Parse = NotJson | Parsed(value: Json)

  /** The upstream bytes unchanged, a JSON document, or the `Upstream error: ...` text. */
  datatype Body = Bytes(data: seq<byte>) | JsonBody(value: Json) | UpstreamErrorText

  /** A response the handler returns, with the `media_type` it passes; or an exception
      escaping the handler. */
  datatype Response =
    | Reply(status: int, body: Body, mediaType: Option<string>, headers: seq<Header>)
    | Unhandled

  function UserAgent(req: ClientRequest): string {
    FirstValue(req.headers, "User-Agent").GetOr("")
  }

  /** Only clients whose User-Agent mentions `Happ` get the balancer (app.py:136-139). */
  predicate IsHapp(req: ClientRequest) {
    Contains(UserAgent(req), "Happ")
  }

  function HeaderNames(headers: seq<Header>): seq<string> {
    seq(|headers|, k requires 0 <= k < |headers| => headers[k].name)
  }

  const ForwardedNames: seq<string> :=
    ["User-Agent", "Accept", "X-Forwarded-Proto", "X-Forwarded-Host", "X-Forwarded-For"]

  /** The headers sent upstream (app.py:145-151, repeated at 208-214). */
  function ForwardedHeaders(req: ClientRequest): seq<Header> {
    [ Header("User-Agent", UserAgent(req)),
      Header("Accept", FirstValue(req.headers, "Accept").GetOr("*/*")),
      Header("X-Forwarded-Proto", "https"),
      Header("X-Forwarded-Host", ForwardedHost),
      Header("X-Forwarded-For", req.clientHost.GetOr("127.0.0.1")) ]
  }

  /** The request `proxy_subscription` sends (app.py:143-153). */
  function SubscriptionRequest(settings: Settings, shortUuid: string, req: ClientRequest): UpstreamRequest {
    UpstreamRequest(settings.upstreamUrl + "/" + shortUuid, ForwardedHeaders(req))
  }

  /** The request `proxy_subscription_path` sends (app.py:206-216). */
  function PathRequest(settings: Settings, shortUuid: string, path: string, req: ClientRequest): UpstreamRequest {
    UpstreamRequest(settings.upstreamUrl + "/" + shortUuid + "/" + path, ForwardedHeaders(req))
  }

  /** Both routes send the same headers; the path route asks for the subscription's
      URL with the extra path appended. */
  lemma RequestsShareHeaders(settings: Settings, shortUuid: string, path: string, req: ClientRequest)
    ensures PathRequest(settings, shortUuid, path, req).headers == SubscriptionRequest(settings, shortUuid, req).headers
    ensures PathRequest(settings, shortUuid, path, req).url == SubscriptionRequest(settings, shortUuid, req).url + "/" + path
  {
  }

  /** Headers copied onto a transformed response (app.py:180). */
  const ProfileHeaderNames: seq<string> :=
    ["profile-title", "profile-update-interval", "subscription-userinfo", "profile-web-page-url", "support-url"]

  predicate Distinct(names: seq<string>) {
    forall a, b :: 0 <= a < b < |names| ==> names[a] != names[b]
  }

  /** The loop of app.py:179-182 over `names`: each name present upstream, with the
      upstream value. */
  function CopyHeaders(names: seq<string>, upstream: seq<Header>): (r: seq<Header>)
    ensures forall n :: n in HeaderNames(r) <==> n in names && JoinedValue(upstream, n).Some?
    ensures forall k :: 0 <= k < |r| ==> JoinedValue(upstream, r[k].name) == Some(r[k].value)
    ensures |r| <= |names|
    ensures Distinct(names) ==> forall j, k :: 0 <= j < k < |r| ==> r[j].name != r[k].name
  {
    if |names| == 0 then []
    else
      var rest := CopyHeaders(names[1..], upstream);
      var found := JoinedValue(upstream, names[0]);
      assert forall n :: n in names <==> n == names[0] || n in names[1..];
      if found.Some? then
        var r := [Header(names[0], found.value)] + rest;
        HeaderNamesCons(Header(names[0], found.value), rest);
        CopiedOnce(names, Header(names[0], found.value), rest);
        r
      else rest
  }

  /** Prepending the header for the first name keeps the copied names distinct. */
  lemma CopiedOnce(names: seq<string>, h: Header, rest: seq<Header>)
    requires |names| > 0 && h.name == names[0]
    requires forall n :: n in HeaderNames(rest) ==> n in names[1..]
    requires Distinct(names[1..]) ==> forall j, k :: 0 <= j < k < |rest| ==> rest[j].name != rest[k].name
    ensures Distinct(names) ==> forall j, k :: 0 <= j < k < |[h] + rest| ==> ([h] + rest)[j].name != ([h] + rest)[k].name
  {
    if Distinct(names) {
      assert Distinct(names[1..]);
      assert forall k :: 0 <= k < |rest| ==> HeaderNames(rest)[k] == rest[k].name;
      assert names[0] !in names[1..];
    }
  }

  lemma HeaderNamesCons(h: Header, rest: seq<Header>)
    ensures HeaderNames([h] + rest) == [h.name] + HeaderNames(rest)
  {
  }

  const ErrorStatus: int := 502

  /** The media type of a passthrough on the main route: the upstream content type,
      or `text/plain` without one. */
  function PlainMediaType(up: UpstreamResponse): string {
    JoinedValue(up.headers, "content-type").GetOr("text/plain")
  }

  /** The upstream body with its media type (app.py:164-168 and 193-198). Starlette
      raises while encoding a media type that is not Latin-1, and nothing catches it. */
  function PlainPassthrough(up: UpstreamResponse): (r: Response)
    ensures (forall h :: h in up.headers ==> !SameName(h.name, "content-type")) ==>
      r == Reply(200, Bytes(up.content), Some("text/plain"), [])
    ensures r.Unhandled? <==>
      exists h :: h in up.headers && SameName(h.name, "content-type") && !Latin1(h.value)
    ensures r.Reply? ==> r.status == 200 && r.body == Bytes(up.content) && r.headers == []
  {
    Latin1Join(ValuesOf(up.headers, "content-type"));
    if Latin1(PlainMediaType(up)) then Reply(200, Bytes(up.content), Some(PlainMediaType(up)), [])
    else Unhandled
  }

  /** Every copied header value can be written by Starlette. */
  predicate EncodableValues(headers: seq<Header>) {
    forall k :: 0 <= k < |headers| ==> Latin1(headers[k].value)
  }

  /** Every profile header present upstream has a value Starlette can write. */
  ghost predicate ProfileValuesEncodable(upstream: seq<Header>) {
    forall n :: n in ProfileHeaderNames && JoinedValue(upstream, n).Some? ==> Latin1(JoinedValue(upstream, n).value)
  }

  /** Checking the copies is checking the upstream values of the profile headers. */
  lemma CopiesEncodable(upstream: seq<Header>)
    ensures EncodableValues(CopyHeaders(ProfileHeaderNames, upstream)) <==> ProfileValuesEncodable(upstream)
  {
    var copied := CopyHeaders(ProfileHeaderNames, upstream);
    assert forall k :: 0 <= k < |copied| ==> HeaderNames(copied)[k] == copied[k].name;
    if ProfileValuesEncodable(upstream) {
      forall k | 0 <= k < |copied|
        ensures Latin1(copied[k].value)
      {
        assert copied[k].name in HeaderNames(copied);
      }
    }
    if EncodableValues(copied) {
      forall n | n in ProfileHeaderNames && JoinedValue(upstream, n).Some?
        ensures Latin1(JoinedValue(upstream, n).value)
      {
        assert n in HeaderNames(copied);
        var k :| 0 <= k < |HeaderNames(copied)| && HeaderNames(copied)[k] == n;
        assert JoinedValue(upstream, copied[k].name) == Some(copied[k].value);
      }
    }
  }

  /** The upstream body labelled as JSON (app.py:188-191). */
  function JsonPassthrough(up: UpstreamResponse): Response {
    Reply(200, Bytes(up.content), Some("application/json"), [])
  }

  /** app.py:174-191 once the body has parsed: merge a list of several configs, or
      hand back the body. */
  function Transform(settings: Settings, up: UpstreamResponse, value: Json): Response {
    if value.Arr? && |value.items| > 1 then
      match Balancer.BuildBalancerConfig(settings, value.items)
      case Balanced(b) =>
        var copied := CopyHeaders(ProfileHeaderNames, up.headers);
        if EncodableValues(copied) then
          Reply(200, JsonBody(Arr([Balancer.Render(b)])), Some("application/json"), copied)
        else Unhandled
      case NotBalanced => JsonPassthrough(up)
      case BuildRaises => Unhandled
    else JsonPassthrough(up)
  }

  /** `proxy_subscription` (app.py:132-198). */
  function ProxySubscription(settings: Settings, req: ClientRequest, fetch: Fetch, parsed: Parse): (r: Response)
    ensures fetch.FetchFailed? ==> r == Reply(ErrorStatus, UpstreamErrorText, None, [])
    ensures fetch.Fetched? && fetch.response.status != 200 ==>
      r == Reply(fetch.response.status, Bytes(fetch.response.content), None, [])
    ensures fetch.Fetched? && fetch.response.status == 200 && (!IsHapp(req) || parsed.NotJson?) ==>
      r == PlainPassthrough(fetch.response)
    ensures (fetch.Fetched? && fetch.response.status == 200 && IsHapp(req) && parsed.Parsed? &&
             (!(parsed.value.Arr? && |parsed.value.items| > 1) ||
              Balancer.BuildBalancerConfig(settings, parsed.value.items).NotBalanced?)) ==>
      r == JsonPassthrough(fetch.response)
  {
    match fetch
    case FetchFailed => Reply(ErrorStatus, UpstreamErrorText, None, [])
    case Fetched(up) =>
      if up.status != 200 then Reply(up.status, Bytes(up.content), None, [])
      else if !IsHapp(req) then PlainPassthrough(up)
      else
        match parsed
        case NotJson => PlainPassthrough(up)
        case Parsed(value) => Transform(settings, up, value)
  }

  /** `proxy_subscription_path` (app.py:201-223): no transformation; status, body and
      content type (possibly none) come from upstream. The response is built inside
      the `try`, so a content type Starlette cannot encode also ends in the 502. */
  function ProxySubscriptionPath(fetch: Fetch): (r: Response)
    ensures r.Reply? && r.headers == []
    ensures fetch.FetchFailed? ==> r == Reply(ErrorStatus, UpstreamErrorText, None, [])
    ensures fetch.Fetched? && JoinedValue(fetch.response.headers, "content-type").Some? &&
            !Latin1(JoinedValue(fetch.response.headers, "content-type").value) ==>
      r == Reply(ErrorStatus, UpstreamErrorText, None, [])
    ensures (fetch.Fetched? && (JoinedValue(fetch.response.headers, "content-type").None? ||
             Latin1(JoinedValue(fetch.response.headers, "content-type").value))) ==>
      && r.status == fetch.response.status
      && r.body == Bytes(fetch.response.content)
      && r.mediaType == JoinedValue(fetch.response.headers, "content-type")
  {
    match fetch
    case FetchFailed => Reply(ErrorStatus, UpstreamErrorText, None, [])
    case Fetched(up) =>
      var contentType := JoinedValue(up.headers, "content-type");
      if contentType.Some? && !Latin1(contentType.value) then Reply(ErrorStatus, UpstreamErrorText, None, [])
      else Reply(up.status, Bytes(up.content), contentType, [])
  }

  /** The upstream receives exactly the five forwarded headers, and reads back under
      each name the client's User-Agent (empty if absent) and Accept (any type if
      absent), `https`, the fixed forwarded host, and the client's address (the
      loopback address if unknown). */
  lemma ForwardedLookups(req: ClientRequest)
    ensures |ForwardedHeaders(req)| == |ForwardedNames|
    ensures forall k :: 0 <= k < |ForwardedNames| ==> ForwardedHeaders(req)[k].name == ForwardedNames[k]
    ensures FirstValue(ForwardedHeaders(req), "User-Agent") == Some(FirstValue(req.headers, "User-Agent").GetOr(""))
    ensures FirstValue(ForwardedHeaders(req), "Accept") == Some(FirstValue(req.headers, "Accept").GetOr("*/*"))
    ensures FirstValue(ForwardedHeaders(req), "X-Forwarded-Proto") == Some("https")
    ensures FirstValue(ForwardedHeaders(req), "X-Forwarded-Host") == Some(ForwardedHost)
    ensures FirstValue(ForwardedHeaders(req), "X-Forwarded-For") == Some(req.clientHost.GetOr("127.0.0.1"))
  {
    var hs := ForwardedHeaders(req);
    assert |hs| == 5 && forall j :: 0 <= j < 5 ==> hs[j].name == ForwardedNames[j];
    ForwardedLookup(hs, 0);
    ForwardedLookup(hs, 1);
    ForwardedLookup(hs, 2);
    ForwardedLookup(hs, 3);
    ForwardedLookup(hs, 4);
  }

  /** In a list named like the forwarded headers, each is found under its own name:
      the five names differ in length, so none of them also names an earlier header. */
  lemma ForwardedLookup(hs: seq<Header>, k: nat)
    requires k < 5 && |hs| == 5
    requires forall j :: 0 <= j < 5 ==> hs[j].name == ForwardedNames[j]
    ensures FirstValue(hs, ForwardedNames[k]) == Some(hs[k].value)
  {
    assert |ForwardedNames[0]| == 10 && |ForwardedNames[1]| == 6 && |ForwardedNames[2]| == 17;
    assert |ForwardedNames[3]| == 16 && |ForwardedNames[4]| == 15;
    forall j | 0 <= j < k
      ensures !SameName(hs[j].name, ForwardedNames[k])
    {
      assert |Lower(hs[j].name)| != |Lower(ForwardedNames[k])|;
    }
    FirstAt(hs, ForwardedNames[k], k);
  }

  /** The body is rewritten exactly when a Happ client receives, with status 200, a
      JSON list of more than one config of which at least two carry a proxy outbound
      and none makes the scan raise. The rewritten body is the one-element list holding
      the merged config, labelled as JSON, carrying only the profile headers present
      upstream, each with its upstream value. */
  lemma BalancedResponse(settings: Settings, req: ClientRequest, fetch: Fetch, parsed: Parse)
    ensures var r := ProxySubscription(settings, req, fetch, parsed);
      (r.Reply? && r.body.JsonBody?) <==>
        && fetch.Fetched? && fetch.response.status == 200 && IsHapp(req)
        && parsed.Parsed? && parsed.value.Arr? && |parsed.value.items| > 1
        && !Balancer.AnyRaises(parsed.value.items)
        && |Balancer.ProxyIndices(parsed.value.items)| >= 2
        && ProfileValuesEncodable(fetch.response.headers)
    ensures var r := ProxySubscription(settings, req, fetch, parsed);
      r.Reply? && r.body.JsonBody? ==>
        && r.status == 200
        && r.mediaType == Some("application/json")
        && Balancer.BuildBalancerConfig(settings, parsed.value.items).Balanced?
        && r.body.value == Arr([Balancer.Render(Balancer.BuildBalancerConfig(settings, parsed.value.items).config)])
        && (forall n :: n in HeaderNames(r.headers) <==> n in ProfileHeaderNames && JoinedValue(fetch.response.headers, n).Some?)
        && (forall k :: 0 <= k < |r.headers| ==> JoinedValue(fetch.response.headers, r.headers[k].name) == Some(r.headers[k].value))
        && (forall j, k :: 0 <= j < k < |r.headers| ==> r.headers[j].name != r.headers[k].name)
  {
    ProfileNamesDistinct();
    if fetch.Fetched? {
      CopiesEncodable(fetch.response.headers);
    }
  }

  /** The five profile header names differ in length, so no name is copied twice. */
  lemma ProfileNamesDistinct()
    ensures Distinct(ProfileHeaderNames)
  {
    assert |ProfileHeaderNames[0]| == 13 && |ProfileHeaderNames[1]| == 23 && |ProfileHeaderNames[2]| == 21;
    assert |ProfileHeaderNames[3]| == 20 && |ProfileHeaderNames[4]| == 11;
  }

  /** After a 200, the handler raises in three cases: a body passed through as it is
      whose media type is not Latin-1; a Happ client's JSON list of more than one
      element in which some config makes the scan raise; and a merge whose copied
      profile headers are not all Latin-1. */
  lemma UnhandledResponse(settings: Settings, req: ClientRequest, fetch: Fetch, parsed: Parse)
    ensures ProxySubscription(settings, req, fetch, parsed).Unhandled? <==>
      && fetch.Fetched? && fetch.response.status == 200
      && (|| ((!IsHapp(req) || parsed.NotJson?) && !Latin1(PlainMediaType(fetch.response)))
          || (&& IsHapp(req) && parsed.Parsed? && parsed.value.Arr? && |parsed.value.items| > 1
              && (|| Balancer.AnyRaises(parsed.value.items)
                  || (|Balancer.ProxyIndices(parsed.value.items)| >= 2 && !ProfileValuesEncodable(fetch.response.headers)))))
  {
    if fetch.Fetched? {
      CopiesEncodable(fetch.response.headers);
    }
  }

  /** Every other reply to a completed fetch carries the upstream bytes unchanged and
      no copied headers. */
  lemma UpstreamBodyOtherwise(settings: Settings, req: ClientRequest, fetch: Fetch, parsed: Parse)
    ensures var r := ProxySubscription(settings, req, fetch, parsed);
      fetch.Fetched? && r.Reply? && !r.body.JsonBody? ==>
        r.body == Bytes(fetch.response.content) && r.headers == []
  {
  }

  /** For a client that is not Happ the parse outcome plays no part. */
  lemma PlainClientIgnoresParse(settings: Settings, req: ClientRequest, fetch: Fetch, p1: Parse, p2: Parse)
    requires !IsHapp(req)
    ensures ProxySubscription(settings, req, fetch, p1) == ProxySubscription(settings, req, fetch, p2)
  {
  }

  /** A Happ client whose body is not JSON is answered as a client that is not Happ. */
  lemma NotJsonAsPlainClient(settings: Settings, happ: ClientRequest, other: ClientRequest, fetch: Fetch, parsed: Parse)
    requires IsHapp(happ) && !IsHapp(other)
    ensures ProxySubscription(settings, happ, fetch, NotJson) == ProxySubscription(settings, other, fetch, parsed)
  {
  }

  /** For a client that is not Happ the two routes answer alike when the fetch fails or
      returns 200 with a Latin-1 content type. With a content type Starlette cannot
      encode, the main route raises while the path route, which builds its response
      inside the `try`, answers 502. */
  lemma RoutesAgreeForPlainClients(settings: Settings, req: ClientRequest, fetch: Fetch, parsed: Parse)
    requires !IsHapp(req)
    requires fetch.Fetched? ==>
      fetch.response.status == 200 && JoinedValue(fetch.response.headers, "content-type").Some?
    ensures (fetch.FetchFailed? || Latin1(JoinedValue(fetch.response.headers, "content-type").value)) ==>
      ProxySubscription(settings, req, fetch, parsed) == ProxySubscriptionPath(fetch)
    ensures (fetch.Fetched? && !Latin1(JoinedValue(fetch.response.headers, "content-type").value)) ==>
      && ProxySubscription(settings, req, fetch, parsed).Unhandled?
      && ProxySubscriptionPath(fetch) == Reply(ErrorStatus, UpstreamErrorText, None, [])
  {
  }
}

=== FILE: http_headers.dfy ===
/** HTTP header lists and the two lookup disciplines the program relies on:
    Starlette's request headers and httpx's response headers. Both compare names
    without regard to ASCII case. */
module HttpHeaders {
  import opened Wrappers

  datatype Header = Header(name: string, value: string)

  function LowerChar(c: char): char {
    if 'A' <= c <= 'Z' then (c as int + 32) as char else c
  }

  function Lower(s: string): string {
    seq(|s|, k requires 0 <= k < |s| => LowerChar(s[k]))
  }

  predicate SameName(a: string, b: string) {
    Lower(a) == Lower(b)
  }

  /** The values of every header called `name`, in the order they were received. */
  function ValuesOf(headers: seq<Header>, name: string): (values: seq<string>)
    ensures |values| <= |headers|
    ensures |values| == 0 <==> forall h :: h in headers ==> !SameName(h.name, name)
    ensures forall v :: v in values <==> exists h :: h in headers && SameName(h.name, name) && h.value == v
  {
    if |headers| == 0 then []
    else
      var rest := ValuesOf(headers[1..], name);
      assert forall h :: h in headers <==> h == headers[0] || h in headers[1..];
      if SameName(headers[0].name, name) then [headers[0].value] + rest else rest
  }

  /** A single header contributes its value exactly when it carries the name. */
  lemma ValuesOfOne(h: Header, name: string)
    ensures ValuesOf([h], name) == if SameName(h.name, name) then [h.value] else []
  {
    assert [h][1..] == [];
  }

  /** Lookups over two header lists received one after the other see the values of
      the first list, then those of the second: order and repetitions are kept. */
  lemma {:induction false} ValuesOfConcat(a: seq<Header>, b: seq<Header>, name: string)
    ensures ValuesOf(a + b, name) == ValuesOf(a, name) + ValuesOf(b, name)
  {
    if |a| > 0 {
      assert (a + b)[0] == a[0];
      assert (a + b)[1..] == a[1..] + b;
      ValuesOfConcat(a[1..], b, name);
      if SameName(a[0].name, name) {
        assert ValuesOf(a + b, name) == [a[0].value] + (ValuesOf(a[1..], name) + ValuesOf(b, name));
      }
    } else {
      assert a + b == b;
    }
  }

  /** Lookups do not depend on the case of the name asked for. */
  lemma {:induction false} ValuesOfIgnoresCase(headers: seq<Header>, a: string, b: string)
    requires SameName(a, b)
    ensures ValuesOf(headers, a) == ValuesOf(headers, b)
  {
    if |headers| > 0 {
      ValuesOfIgnoresCase(headers[1..], a, b);
    }
  }

  /** Starlette's `request.headers.get(name)`: the first value received under `name`. */
  function FirstValue(headers: seq<Header>, name: string): (r: Option<string>)
    ensures r.None? <==> forall h :: h in headers ==> !SameName(h.name, name)
    ensures r.Some? ==> exists h :: h in headers && SameName(h.name, name) && h.value == r.value
  {
    var values := ValuesOf(headers, name);
    if |values| == 0 then None
    else
      assert values[0] in values;
      Some(values[0])
  }

  /** The first header carrying `name` decides the lookup, whatever follows it. */
  lemma FirstAt(headers: seq<Header>, name: string, at: nat)
    requires at < |headers| && SameName(headers[at].name, name)
    requires forall j :: 0 <= j < at ==> !SameName(headers[j].name, name)
    ensures FirstValue(headers, name) == Some(headers[at].value)
  {
    LeadingValue(headers, name, at);
  }

  lemma {:induction false} LeadingValue(headers: seq<Header>, name: string, at: nat)
    requires at < |headers| && SameName(headers[at].name, name)
    requires forall j :: 0 <= j < at ==> !SameName(headers[j].name, name)
    ensures |ValuesOf(headers, name)| > 0 && ValuesOf(headers, name)[0] == headers[at].value
  {
    if at > 0 {
      LeadingValue(headers[1..], name, at - 1);
    }
  }

  /** `", ".join(parts)`. */
  function Join(parts: seq<string>, separator: string): string {
    if |parts| == 0 then ""
    else if |parts| == 1 then parts[0]
    else parts[0] + separator + Join(parts[1..], separator)
  }

  /** httpx's `response.headers.get(name)`: every value received under `name`, joined
      with ", ". `name in response.headers` holds exactly when this is present. */
  function JoinedValue(headers: seq<Header>, name: string): Option<string> {
    var values := ValuesOf(headers, name);
    if |values| == 0 then None else Some(Join(values, ", "))
  }

  /** The two disciplines find a header under the same names, and agree on its value
      when it was received once. */
  lemma LookupsAgree(headers: seq<Header>, name: string)
    ensures JoinedValue(headers, name).Some? <==> FirstValue(headers, name).Some?
    ensures |ValuesOf(headers, name)| == 1 ==> JoinedValue(headers, name) == FirstValue(headers, name)
  {
  }

  /** Starlette writes every response header with `.encode("latin-1")`, which raises
      on a character beyond U+00FF. */
  predicate Latin1(s: string) {
    forall k :: 0 <= k < |s| ==> s[k] as int < 256
  }

  lemma Latin1Concat(a: string, b: string)
    ensures Latin1(a + b) <==> Latin1(a) && Latin1(b)
  {
    assert forall k :: 0 <= k < |a| ==> (a + b)[k] == a[k];
    assert forall k :: 0 <= k < |b| ==> (a + b)[|a| + k] == b[k];
  }

  /** A joined header value is Latin-1 exactly when every part is. */
  lemma {:induction false} Latin1Join(parts: seq<string>)
    ensures Latin1(Join(parts, ", ")) <==> forall p :: p in parts ==> Latin1(p)
  {
    if |parts| > 1 {
      Latin1Join(parts[1..]);
      Latin1Concat(parts[0], ", ");
      Latin1Concat(parts[0] + ", ", Join(parts[1..], ", "));
      assert forall p :: p in parts <==> p == parts[0] || p in parts[1..];
    }
  }

  /** `sub` occurs in `s` starting at position `i`. */
  predicate OccursAt(s: string, sub: string, i: nat) {
    i + |sub| <= |s| && s[i..i + |sub|] == sub
  }

  /** Python's `sub in s` on strings. */
  function Contains(s: string, sub: string): (r: bool)
    ensures r <==> exists i: nat :: OccursAt(s, sub, i)
    decreases |s|
  {
    if |s| < |sub| then false
    else if s[..|sub|] == sub then
      assert OccursAt(s, sub, 0);
      true
    else
      var rest := Contains(s[1..], sub);
      assert forall i: nat :: OccursAt(s[1..], sub, i) <==> OccursAt(s, sub, i + 1);
      assert !OccursAt(s, sub, 0);
      assert forall i: nat :: OccursAt(s, sub, i) ==> i == 0 || OccursAt(s[1..], sub, i - 1);
      rest
  }
}

=== FILE: json.dfy ===
/** JSON values of the shapes Python's `json` module hands to the program, with
    strings of Unicode scalar values only (a `char` cannot hold a lone surrogate,
    which `json.loads` accepts from a `\ud800` escape): objects are
    dicts whose fields keep insertion order. A dict never holds a key twice, so
    looking a key up from the front finds the one field that carries it. */
module JsonValues {
  import opened Wrappers

  datatype Json =
    | Null
    | Bool(b: bool)
    | Num(n: int)
    | Str(s: string)
    | Arr(items: seq<Json>)
    | Obj(fields: seq<Field>)

  datatype Field = Field(key: string, value: Json)

  /** The keys of an object, in insertion order. */
  function Keys(fields: seq<Field>): seq<string>
  {
    seq(|fields|, k requires 0 <= k < |fields| => fields[k].key)
  }

  /** `d.get(key)`: the value stored under `key`, if any. */
  function Get(fields: seq<Field>, key: string): Option<Json>
  {
    if |fields| == 0 then None
    else if fields[0].key == key then Some(fields[0].value)
    else Get(fields[1..], key)
  }

  /** A lookup finds a value exactly when the key is present, and the value it finds
      is stored under that key. */
  lemma {:induction false} GetKeys(fields: seq<Field>, key: string)
    ensures Get(fields, key).None? <==> key !in Keys(fields)
    ensures Get(fields, key).Some? ==> Field(key, Get(fields, key).value) in fields
  {
    if |fields| > 0 {
      KeysCons(fields[0], fields[1..]);
      assert fields == [fields[0]] + fields[1..];
      GetKeys(fields[1..], key);
    }
  }

  /** `d.get(key, default)`. */
  function GetOr(fields: seq<Field>, key: string, default: Json): Json
  {
    Get(fields, key).GetOr(default)
  }

  /** `d[key] = value`: a present key keeps its position and gets the new value,
      an absent key is appended; every other key keeps its value. */
  function Put(fields: seq<Field>, key: string, value: Json): (r: seq<Field>)
    ensures Get(r, key) == Some(value)
    ensures forall other :: other != key ==> Get(r, other) == Get(fields, other)
    ensures Keys(r) == if key in Keys(fields) then Keys(fields) else Keys(fields) + [key]
  {
    if |fields| == 0 then [Field(key, value)]
    else
      var head, tail := fields[0], fields[1..];
      assert fields == [head] + tail;
      KeysCons(head, tail);
      if head.key == key then
        KeysCons(Field(key, value), tail);
        GetConsAll(Field(key, value), tail);
        GetConsAll(head, tail);
        [Field(key, value)] + tail
      else
        var rest := Put(tail, key, value);
        KeysCons(head, rest);
        GetConsAll(head, rest);
        GetConsAll(head, tail);
        [head] + rest
  }

  lemma KeysCons(f: Field, rest: seq<Field>)
    ensures Keys([f] + rest) == [f.key] + Keys(rest)
  {
  }

  lemma GetConsAll(f: Field, rest: seq<Field>)
    ensures forall key :: Get([f] + rest, key) == if f.key == key then Some(f.value) else Get(rest, key)
  {
    var fs := [f] + rest;
    assert fs[0] == f && fs[1..] == rest;
  }

  /** A field whose key no earlier field carries is what a lookup of that key finds. */
  lemma {:induction false} GetFirst(fields: seq<Field>, k: nat)
    requires k < |fields|
    requires forall j :: 0 <= j < k ==> fields[j].key != fields[k].key
    ensures Get(fields, fields[k].key) == Some(fields[k].value)
  {
    if k > 0 {
      GetFirst(fields[1..], k - 1);
    }
  }

  /** Python dicts, and so the objects `json.loads` builds, never hold a key twice. */
  predicate UniqueKeys(fields: seq<Field>) {
    forall i, j :: 0 <= i < j < |fields| ==> fields[i].key != fields[j].key
  }

  /** In a dict every field is what a lookup of its key finds. */
  lemma GetUnique(fields: seq<Field>, k: nat)
    requires UniqueKeys(fields) && k < |fields|
    ensures Get(fields, fields[k].key) == Some(fields[k].value)
  {
    GetFirst(fields, k);
  }

  /** Item assignment keeps a dict a dict. */
  lemma PutKeepsUniqueKeys(fields: seq<Field>, key: string, value: Json)
    requires UniqueKeys(fields)
    ensures UniqueKeys(Put(fields, key, value))
  {
    var r := Put(fields, key, value);
    assert forall i :: 0 <= i < |r| ==> Keys(r)[i] == r[i].key;
    assert forall i :: 0 <= i < |fields| ==> Keys(fields)[i] == fields[i].key;
  }

  /** One step into a JSON value: a dict key or a list position. */
  datatype Step = Key(name: string) | Index(at: nat)

  /** `j[s0][s1]...`, or `None` where a step does not apply. */
  function Path(j: Json, steps: seq<Step>): Option<Json>
    decreases |steps|
  {
    if |steps| == 0 then Some(j)
    else
      match (steps[0], j)
      case (Key(name), Obj(fs)) =>
        (match Get(fs, name)
         case Some(v) => Path(v, steps[1..])
         case None => None)
      case (Index(at), Arr(items)) =>
        if at < |items| then Path(items[at], steps[1..]) else None
      case _ => None
  }
}

=== FILE: wrappers.dfy ===
/** Optional values, used wherever the source returns `None` or looks up a key
    that may be absent. */
module Wrappers {

  datatype Option<+T> = None | Some(value: T) {

    /** The value, or `default` when there is none (Python's `d.get(k, default)`). */
    function GetOr(default: T): T {
      match this
      case Some(v) => v
      case None => default
    }
  }
}
